=== FILE: README.md ===
# kcptun SIP003 plugin — Dafny model

This project models the core of a SIP003 (shadowsocks) plugin that tunnels TCP
connections over KCP with smux multiplexing. It covers three parts:

- **Plugin configuration** (`Plugin`, `Decimal`). A default record (server mode,
  local `127.0.0.1:12948`, remote `127.0.0.1:29900`) is overwritten by the four
  `SS_*` environment variables. The environment is an explicit list of
  (key, value) pairs. Port values go through `u16::from_str`, modelled as
  `Decimal.ParsePort`: an optional `+`, then one or more ASCII digits with a
  value of at most 65535. From the record come four address texts. Each text
  is the host immediately followed by the decimal port. `format!("{}{}", …)`
  puts no `:` between them, and the model keeps that as written: with the
  defaults the texts are `127.0.0.112948` and `127.0.0.129900`, which contain
  no `:` at all (`Plugin.NoPortSeparator`). `SocketAddr::from_str` is a parameter
  `validAddr: string -> bool`. The one fact of its grammar the model uses is
  `Plugin.NeedsColon`: both accepted forms, `ip:port` and `[ip]:port`, contain
  a `:`.
- **Role configuration** (`Configuration`). Each role wraps the plugin record
  with a 4 MiB socket buffer and the "fastest" KCP no-delay profile. Only the
  server gets a 5-second read timeout.
- **Relay and accept loops** (`Relay`, `Client`, `Server`). `proxy` is a state
  machine over an already-interleaved trace of completed events. Each event is
  one turn of the `tokio::select!` loop. The machine records the
  `send_message` and `write_all` calls it makes and ends in `Ok`, `Err` or
  "still running". Client and server define `proxy` with bodies that behave
  identically, so one definition, `Relay.Proxy`, models both. Each read chunk
  is sent as one whole message. The accept loops are folds over per-turn outcomes. They
  record the relays and session loops they spawn. Lemmas show that a loop's
  outcome never depends on how those spawned tasks end.

Consequences of the code as written, which the model follows:

- As written, the program cannot start when a host has no `:` of its own. A
  bare IPv4 address such as `127.0.0.1` and both defaults are such hosts.
  The address text then has no `:`, so `SocketAddr::from_str` rejects it.
  When the remote host has no `:`, `Client::run` returns before it dials
  (`Client.UnseparatedRemote`, `Client.DefaultsNeverDial`). When only the
  local host has none, it dials and builds the session, then returns before
  it binds (`Client.UnseparatedLocal`). With either host lacking `:`,
  `Server::run` returns before it binds (`Server.UnseparatedListen`,
  `Server.UnseparatedTarget`, `Server.DefaultsNeverListen`). The evidently
  intended text is `host:port`. The model keeps the code's text and does not
  substitute that one.
- A read of up to 65535 bytes becomes exactly one message. The relay does not
  split it further.
- On the server, a failed TCP connect to the target ends that session's stream
  loop (`Server.ConnectFailureEndsSession`).
- On the server, a failed `Session::server` ends `Server::run`
  (`Server.SessionConstructionFatal`).
- The socket buffer size and the server read timeout are stored in the
  configuration, but no modelled code reads them.

## Model

| member | source | states |
|---|---|---|
| Decimal.ParsePort | src/plugin.rs:32-36 | Parsing succeeds exactly on an optional '+' followed by one or more digits with value at most 65535. The result is that value. A failure carries the rejected text. |
| Decimal.Accumulate | src/plugin.rs:33 | The digit loop succeeds only on an all-digit text, and never yields less than its start value. Its full meaning is Decimal.AccumulateMeaning. |
| Decimal.AccumulateMeaning | src/plugin.rs:33 | The checked multiply-and-add digit loop fails exactly on a non-digit or on a value above 65535. Otherwise it computes the positional value. |
| Decimal.Format | src/plugin.rs:82 | The decimal rendering of a port is a non-empty digit string with that value and no leading zero. |
| Decimal.FormatParses | src/plugin.rs:32-36 | For every u16 port, its decimal rendering is canonical and parses back to the same port. |
| Decimal.CanonicalRoundTrip | src/plugin.rs:82 | Any canonical port text (no sign, no leading zero) is re-rendered to itself after parsing. |
| Plugin.Default | src/plugin.rs:20-30 | The default record is in server mode. Both hosts are the same loopback text without ':', and the two ports differ. The exact values are stated by Plugin.NewWithoutRecognisedKeys. |
| Plugin.Apply | src/plugin.rs:61-75 | One entry fails exactly when its key is a port key and its text does not parse, and then with that text. It never changes the role flag. An unrecognised key leaves the record as it is. |
| Plugin.Fold | src/plugin.rs:60-76 | The loop keeps the role flag. Its only possible error is the text of some port entry of the environment. Its full meaning is Plugin.FoldMeaning. |
| Plugin.New | src/plugin.rs:55-79 | Construction succeeds exactly when every port variable parses. The result is then the environment overlaid on the default record, the last entry per key winning. |
| Plugin.FoldMeaning | src/plugin.rs:55-78 | The environment fold succeeds iff every port entry parses. It then gives each field the value of the last entry for its key, or keeps the start value. Otherwise it reports the first port text that fails to parse. |
| Plugin.FoldAppend | src/plugin.rs:60-76 | Folding a concatenation of entry lists folds the first list, then the second. An error in the first list stops the fold. |
| Plugin.NewWithoutRecognisedKeys | src/plugin.rs:20-30 | With no SS_* key, the result is server mode, local 127.0.0.1:12948 and remote 127.0.0.1:29900. |
| Plugin.UnrecognisedKeyIgnored | src/plugin.rs:74 | Inserting an entry with any other key anywhere in the environment does not change the result. |
| Plugin.HostOverride | src/plugin.rs:62-70 | A later SS_LOCAL_HOST or SS_REMOTE_HOST entry replaces that host verbatim and leaves all other fields alone. |
| Plugin.PortOverride | src/plugin.rs:65-73 | A later port entry replaces that port with the parsed value. If the text does not parse, construction fails with that text and no config. |
| Plugin.NewClient | src/plugin.rs:39-45 | Fails exactly when new() fails, with the same error. Otherwise it sets client mode and keeps every host and port of new(). |
| Plugin.NewServer | src/plugin.rs:47-53 | Fails exactly when new() fails, with the same error. Otherwise it sets server mode and keeps every host and port of new(). |
| Plugin.AddrText | src/plugin.rs:82 | The address text starts with the host. The rest is the canonical decimal port, and it parses back to the port. No separator sits between them. |
| Plugin.ParseAddr | src/plugin.rs:83 | For a parser that only accepts texts with ':', as SocketAddr::from_str does, a text without ':' is always rejected. Otherwise it succeeds exactly when the parser accepts, and a failure carries the text. |
| Plugin.ServerListenAddr | src/plugin.rs:81-85 | Built from the remote host and remote port. A parsed address splits back into exactly those two. |
| Plugin.ServerTargetAddr | src/plugin.rs:87-91 | Built from the local host and local port. A parsed address splits back into exactly those two. |
| Plugin.ClientLocalAddr | src/plugin.rs:94-98 | Gives the same result as server_target_addr: the local host followed by the local port. |
| Plugin.ClientRemoteAddr | src/plugin.rs:100-104 | Gives the same result as server_listen_addr: the remote host followed by the remote port. |
| Plugin.NoPortSeparator | src/plugin.rs:82 | When the host has no ':', the whole address text has none. This holds for both default addresses, so nothing separates the port from the host. |
| Configuration.DefaultSockbuf | src/config.rs:17-19 | The socket buffer is 4194304 bytes and fits in a u32. |
| Configuration.NewKcpConfig | src/config.rs:45-52 | The KCP configuration uses the fastest no-delay profile. |
| Configuration.NewClient | src/config.rs:21-31 | Fails iff plugin construction fails, with the same error. Otherwise: client mode, the plugin addresses, 4 MiB buffer, no read timeout, fastest profile. |
| Configuration.NewServer | src/config.rs:33-43 | Fails iff plugin construction fails, with the same error. Otherwise: server mode, the plugin addresses, 4 MiB buffer, 5-second read timeout, fastest profile. |
| Configuration.RolesDifferOnlyInRole | src/config.rs:21-43 | From one environment, both roles fail alike or succeed with the same addresses, buffer and profile. They differ only in the role flag and the timeout. |
| Relay.Select | src/client.rs:19-37 | One turn leaves the loop exactly on an ending event, with Ok exactly on a zero-length read or a fin. The only call it makes is the one its event asks for: a send of a non-empty chunk or a write of a message. |
| Relay.Proxy | src/client.rs:15-40 | The relay uses at most the whole trace. While running it has used all of it. A stopped relay has used at least one event. Which event stopped it is stated by Relay.ProxyStops. |
| Relay.ProxyStops | src/client.rs:18-38 | The relay runs iff no event in the trace ends it. Otherwise it stops at the first such event, with Ok exactly when that event is a zero-length read or a fin. |
| Relay.ProxyCalls | src/server.rs:20-39 | Up to the stop, the sent messages are exactly the non-empty read chunks, and the written payloads are exactly the received messages, each in order. |
| Relay.ProxyStopsForGood | src/client.rs:18-39 | After the relay stops, later events change neither its calls nor its result. |
| Relay.ProxyExtends | src/server.rs:20-39 | While running, one more event appends exactly that turn's calls, and its outcome decides whether the relay continues. |
| Relay.CleanEnd | src/client.rs:20-33 | A zero-length read or a fin ends the relay with Ok, and no further send or write is made. |
| Relay.ErrorEnd | src/client.rs:21-35 | A failed read, send, receive or write ends the relay with Err right after the failing call. Nothing is emitted afterwards. |
| Relay.OneCallPerEvent | src/server.rs:22-37 | A non-empty read becomes exactly one send_message of the whole chunk. A received message becomes exactly one write_all. |
| Relay.ByteStreamIntegrity | src/client.rs:18-38 | Up to the stop, the payloads handed to send_message, concatenated in order, equal the bytes read from TCP. The payloads handed to write_all equal the bytes received. The last call counted may be the one that failed. |
| Relay.SentMessagesFit | src/client.rs:16-26 | On a well-formed trace (reads fit the 65535-byte buffer), every sent message holds 1 to 65535 bytes. |
| Client.AcceptLoop | src/client.rs:63-80 | Every turn until the loop returns spawns one relay or drops one socket. A loop still running has accounted for every turn. |
| Client.AcceptLoopMeaning | src/client.rs:63-79 | Loops iff no accept fails. It spawns one relay per opened stream, in order, until the first failed accept, and that accept's error ends run. |
| Client.OpenFailureTolerated | src/client.rs:65-72 | A failed open_stream drops the socket. The spawned relays and the loop's outcome are the same as without it, and exactly one more socket is dropped if the loop reached that turn. |
| Client.RelayOutcomeIgnored | src/client.rs:76-79 | The loop's outcome and counts do not depend on what any spawned relay does. |
| Client.Run | src/client.rs:47-61 | Dials the remote address text. The local listener counts as bound exactly when every setup step succeeds, and then its address is the local text. The steps run in order: remote address, connect, session, local address, bind. The first one that fails ends run with its own error, before any accept. Otherwise run is the accept loop. |
| Client.UnseparatedRemote | src/client.rs:49 | For a parser that needs ':', a remote host without ':' makes run return the address error before any dial, bind or accept. |
| Client.UnseparatedLocal | src/client.rs:56 | For a parser that needs ':', a local host without ':' means nothing is bound or accepted. Run returns an address, connect or session error. |
| Client.DefaultsNeverDial | src/client.rs:49 | With no SS_* variable, the client configuration is built, but run returns the remote address error at once. |
| Server.LoopSmuxSession | src/server.rs:44-59 | Every connect goes to the fixed target. There is one connect per spawned relay, plus one when a failed connect ends the loop. |
| Server.SessionLoopMeaning | src/server.rs:46-58 | Loops iff no accept_stream or connect fails. It spawns one relay per connected stream until the first failure, and ends with that failure's error. |
| Server.SessionLoopStopsForGood | src/server.rs:47-50 | Once the session loop has returned, no later stream is accepted. |
| Server.ConnectFailureEndsSession | src/server.rs:50 | A failed TCP connect ends the session loop with Err. Later streams are never accepted. |
| Server.RelayFailureContained | src/server.rs:52-57 | The session loop's outcome and connects do not depend on what any spawned relay does. |
| Server.AcceptSessions | src/server.rs:74-86 | Never records more session loops than accept turns. |
| Server.AcceptSessionsMeaning | src/server.rs:74-86 | Loops iff every turn starts a session. It runs one session loop per started session until the first failed KCP accept or Session::server, and returns that error. |
| Server.SessionFailureContained | src/server.rs:80-85 | The server's outcome does not depend on how any session loop ends. |
| Server.SessionConstructionFatal | src/server.rs:78 | A failed Session::server ends run. No later connection is accepted. |
| Server.Run | src/server.rs:66-72 | Resolves the listen text (remote fields), then the target text (local fields), then binds. A target exists exactly when both texts resolve. The first step that fails ends run with its own error, before any accept. Otherwise run is the accept loop over that target. |
| Server.UnseparatedListen | src/server.rs:68 | For a parser that needs ':', a remote host without ':' makes run return the listen address error before any bind or accept. |
| Server.UnseparatedTarget | src/server.rs:69 | For a parser that needs ':', a local host without ':' leaves no target and no session. Run returns one of the two address errors. |
| Server.DefaultsNeverListen | src/server.rs:68 | With no SS_* variable, the server configuration is built, but run returns the listen address error at once. |
| Server.AllStreamsReachTarget | src/server.rs:69-81 | Every stream of every session is dialled to the target built from the local host and port. |

## Left out

- src/main.rs (process entry, logger setup): it uses `plugin::PluginOptions`, which src/plugin.rs does not define.
- `Config::new_smux`: it returns the library's `SmuxConfig::default()` unchanged, and nothing about it is decided here.
- KCP, smux and tokio I/O, `tokio::select!` scheduling and `tokio::spawn` are not modelled. The relay receives an already-interleaved event trace. The loops receive per-turn outcomes and record the tasks they spawn.
- `SocketAddr::from_str` is a parameter. Beyond `Plugin.NeedsColon`, which texts it accepts is not modelled. The internals of `KcpConfig`, `KcpNoDelayConfig` and `Duration` are reduced to tags.
- Logging side effects are not modelled.
- Closing or dropping sockets and streams is not modelled.
- The iteration order of `env::vars()` is not modelled, and neither is its panic on non-Unicode variables. The environment is a given list.
- The `Client::new` and `Server::new` constructors only store the configuration.
- The error kinds of `u16::from_str` (empty, invalid digit, overflow) are not told apart. The code turns every one of them into the same propagated error.
- Relay.Proxy: it accepts traces that a real run never produces: reads that exceed the 65535-byte buffer, and a failed `write_all` of an empty message, which completes without I/O. `Relay.WellFormed` excludes both, and only Relay.SentMessagesFit assumes it.

=== FILE: client.dfy ===
/** `Client::run`: dial the server over KCP, wrap the connection in one smux
    client session, bind the local TCP listener, then for every accepted TCP
    connection open a stream and spawn a relay.  The spawned relays run on
    their own; the loop only records the trace each one was handed. */
module Client {
  import opened Outcomes
  import Plugin
  import Configuration
  import Relay

  /** One turn of the accept loop. */
  datatype Attempt =
    | AcceptFailed                    // `tcp_listener.accept()` returned an error
    | OpenFailed                      // `session.open_stream()` returned an error
    | Opened(relay: seq<Relay.Event>) // a relay was spawned; it will see `relay`

  /** The relays spawned, the sockets dropped, and where the loop stands. */
  datatype AcceptRun = AcceptRun(relays: seq<seq<Relay.Event>>, dropped: nat, progress: Progress)

  /** The `loop` of `Client::run`. */
  function AcceptLoop(attempts: seq<Attempt>): (r: AcceptRun)
    ensures |r.relays| + r.dropped <= |attempts|
    ensures r.progress.Looping? ==> |r.relays| + r.dropped == |attempts|
  {
    if attempts == [] then AcceptRun([], 0, Looping)
    else
      match attempts[0]
      case AcceptFailed => AcceptRun([], 0, Returned(Io(TcpAccept)))
      case OpenFailed =>
        var r := AcceptLoop(attempts[1..]);
        r.(dropped := r.dropped + 1)
      case Opened(relay) =>
        var r := AcceptLoop(attempts[1..]);
        r.(relays := [relay] + r.relays)
  }

  // ---------------------------------------------------------------------
  // Reference views of the attempts

  /** The traces of the opened streams, in order. */
  function OpenedRelays(attempts: seq<Attempt>): seq<seq<Relay.Event>> {
    if attempts == [] then []
    else (if attempts[0].Opened? then [attempts[0].relay] else []) + OpenedRelays(attempts[1..])
  }

  /** How many `open_stream` calls failed. */
  function OpenFailures(attempts: seq<Attempt>): nat {
    if attempts == [] then 0
    else (if attempts[0].OpenFailed? then 1 else 0) + OpenFailures(attempts[1..])
  }

  /** Attempt `k` is the first failed accept. */
  predicate FirstAcceptFailure(attempts: seq<Attempt>, k: int) {
    0 <= k < |attempts| && attempts[k].AcceptFailed? &&
    forall j :: 0 <= j < k ==> !attempts[j].AcceptFailed?
  }

  /** The loop spawns one relay per opened stream and drops one socket per
      failed open until the first failed accept, which ends `run`. */
  lemma {:induction false} AcceptLoopMeaning(attempts: seq<Attempt>)
    ensures var r := AcceptLoop(attempts);
            && (r.progress.Looping? <==> forall i :: 0 <= i < |attempts| ==> !attempts[i].AcceptFailed?)
            && (r.progress.Looping? ==>
                  r.relays == OpenedRelays(attempts) && r.dropped == OpenFailures(attempts))
            && (r.progress.Returned? ==>
                  && r.progress.error == Io(TcpAccept)
                  && exists k :: FirstAcceptFailure(attempts, k) &&
                       r.relays == OpenedRelays(attempts[..k]) &&
                       r.dropped == OpenFailures(attempts[..k]))
    decreases |attempts|
  {
    if attempts != [] {
      var a := attempts[0];
      var rest := attempts[1..];
      if a.AcceptFailed? {
        assert FirstAcceptFailure(attempts, 0);
        assert attempts[..0] == [];
      } else {
        AcceptLoopMeaning(rest);
        NoFailureCons(attempts);
        var r := AcceptLoop(rest);
        if r.progress.Returned? {
          var k :| FirstAcceptFailure(rest, k) &&
                   r.relays == OpenedRelays(rest[..k]) && r.dropped == OpenFailures(rest[..k]);
          LaterFailure(attempts, k);
        }
      }
    }
  }

  /** Past an accepted connection, no accept fails in the whole sequence
      exactly when none fails in the rest. */
  lemma NoFailureCons(attempts: seq<Attempt>)
    requires attempts != [] && !attempts[0].AcceptFailed?
    ensures (forall i :: 0 <= i < |attempts| ==> !attempts[i].AcceptFailed?) <==>
            (forall i :: 0 <= i < |attempts| - 1 ==> !attempts[1..][i].AcceptFailed?)
  {
    assert forall i :: 0 < i < |attempts| ==> attempts[i] == attempts[1..][i - 1];
  }

  /** The first failed accept of the rest is the first one of the whole
      sequence, one position later, and the prefix before it starts with the
      accepted connection. */
  lemma LaterFailure(attempts: seq<Attempt>, k: int)
    requires attempts != [] && !attempts[0].AcceptFailed? && FirstAcceptFailure(attempts[1..], k)
    ensures FirstAcceptFailure(attempts, k + 1)
    ensures attempts[..k + 1] != [] && attempts[..k + 1][0] == attempts[0]
    ensures attempts[..k + 1][1..] == attempts[1..][..k]
  {
    assert forall i :: 0 < i < |attempts| ==> attempts[i] == attempts[1..][i - 1];
  }

  /** A failed `open_stream` drops that socket and changes nothing else: the
      loop goes on with the same relays and the same outcome. */
  lemma {:induction false} OpenFailureTolerated(a: seq<Attempt>, b: seq<Attempt>)
    ensures var with, without := AcceptLoop(a + [OpenFailed] + b), AcceptLoop(a + b);
            && with.relays == without.relays
            && with.progress == without.progress
            && with.dropped == without.dropped + (if AcceptLoop(a).progress.Looping? then 1 else 0)
    decreases |a|
  {
    if a == [] {
      assert a + [OpenFailed] + b == [OpenFailed] + b;
      assert ([OpenFailed] + b)[1..] == b;
      assert a + b == b;
    } else {
      assert (a + [OpenFailed] + b)[0] == a[0];
      assert (a + [OpenFailed] + b)[1..] == a[1..] + [OpenFailed] + b;
      assert (a + b)[0] == a[0];
      assert (a + b)[1..] == a[1..] + b;
      OpenFailureTolerated(a[1..], b);
    }
  }

  /** Two attempt sequences that differ only in what the spawned relays go
      on to do. */
  predicate SameShape(a: seq<Attempt>, b: seq<Attempt>) {
    |a| == |b| &&
    forall i :: 0 <= i < |a| ==>
      (a[i].AcceptFailed? <==> b[i].AcceptFailed?) && (a[i].OpenFailed? <==> b[i].OpenFailed?)
  }

  /** The loop does not depend on how any spawned relay ends. */
  lemma {:induction false} RelayOutcomeIgnored(a: seq<Attempt>, b: seq<Attempt>)
    requires SameShape(a, b)
    ensures AcceptLoop(a).progress == AcceptLoop(b).progress
    ensures |AcceptLoop(a).relays| == |AcceptLoop(b).relays|
    ensures AcceptLoop(a).dropped == AcceptLoop(b).dropped
    decreases |a|
  {
    if a != [] {
      assert SameShape(a[1..], b[1..]) by {
        forall i | 0 <= i < |a| - 1
          ensures (a[1..][i].AcceptFailed? <==> b[1..][i].AcceptFailed?)
          ensures (a[1..][i].OpenFailed? <==> b[1..][i].OpenFailed?)
        {
          assert a[1..][i] == a[i + 1] && b[1..][i] == b[i + 1];
        }
      }
      RelayOutcomeIgnored(a[1..], b[1..]);
    }
  }

  // ---------------------------------------------------------------------
  // `Client::run`

  /** How the setup calls complete: `KcpStream::connect`, `Session::client`
      and `TcpListener::bind`. */
  datatype Setup = Setup(connect: Completion, session: Completion, bind: Completion)

  /** The address dialled, the address bound (only once the bind succeeded),
      and the accept loop. */
  datatype ClientRun = ClientRun(
    dialed: Option<Plugin.SocketAddr>,
    bound: Option<Plugin.SocketAddr>,
    loop: AcceptRun)

  /** Every setup step succeeds. */
  predicate SetupSucceeds(config: Configuration.Config, validAddr: string -> bool, setup: Setup) {
    validAddr(Plugin.RemoteText(config.plugin)) && setup.connect.Done? && setup.session.Done? &&
    validAddr(Plugin.LocalText(config.plugin)) && setup.bind.Done?
  }

  function Stop(dialed: Option<Plugin.SocketAddr>, bound: Option<Plugin.SocketAddr>, e: Error): ClientRun {
    ClientRun(dialed, bound, AcceptRun([], 0, Returned(e)))
  }

  /** `Client::run`: resolve and dial the remote address, build the session,
      resolve and bind the local address, then loop. */
  function Run(config: Configuration.Config, validAddr: string -> bool, setup: Setup,
               attempts: seq<Attempt>): (r: ClientRun)
    ensures r.dialed.Some? <==> validAddr(Plugin.RemoteText(config.plugin))
    ensures r.dialed.Some? ==> r.dialed.value.text == Plugin.RemoteText(config.plugin)
    ensures r.bound.Some? <==> SetupSucceeds(config, validAddr, setup)
    ensures r.bound.Some? ==> r.bound.value.text == Plugin.LocalText(config.plugin)
    ensures SetupSucceeds(config, validAddr, setup) ==> r.loop == AcceptLoop(attempts)
    ensures !SetupSucceeds(config, validAddr, setup) ==>
              && r.loop.relays == [] && r.loop.dropped == 0
              && r.loop.progress.Returned? && r.loop.progress.error != Io(TcpAccept)
    // each `?` of the setup returns the error of the first step that fails
    ensures !validAddr(Plugin.RemoteText(config.plugin)) ==>
              r.loop.progress == Returned(InvalidAddr(Plugin.RemoteText(config.plugin)))
    ensures r.dialed.Some? && setup.connect.Failed? ==> r.loop.progress == Returned(Io(KcpConnect))
    ensures r.dialed.Some? && setup.connect.Done? && setup.session.Failed? ==>
              r.loop.progress == Returned(Io(SessionClient))
    ensures r.dialed.Some? && setup.connect.Done? && setup.session.Done? &&
            !validAddr(Plugin.LocalText(config.plugin)) ==>
              r.loop.progress == Returned(InvalidAddr(Plugin.LocalText(config.plugin)))
    ensures r.dialed.Some? && setup.connect.Done? && setup.session.Done? &&
            validAddr(Plugin.LocalText(config.plugin)) && setup.bind.Failed? ==>
              r.loop.progress == Returned(Io(TcpBind))
  {
    match Plugin.ClientRemoteAddr(config.plugin, validAddr)
    case Err(e) => Stop(None, None, e)
    case Ok(remote) =>
      if setup.connect.Failed? then Stop(Some(remote), None, Io(KcpConnect))
      else if setup.session.Failed? then Stop(Some(remote), None, Io(SessionClient))
      else
        match Plugin.ClientLocalAddr(config.plugin, validAddr)
        case Err(e) => Stop(Some(remote), None, e)
        case Ok(local) =>
          if setup.bind.Failed? then Stop(Some(remote), None, Io(TcpBind))
          else ClientRun(Some(remote), Some(local), AcceptLoop(attempts))
  }

  /** `client_remote_addr` puts no ':' between host and port, so a remote host
      without a ':' of its own, such as a bare IPv4 address, never resolves:
      `run` returns before it dials anything. */
  lemma UnseparatedRemote(config: Configuration.Config, validAddr: string -> bool, setup: Setup,
                          attempts: seq<Attempt>)
    requires Plugin.NeedsColon(validAddr) && ':' !in config.plugin.remoteHost
    ensures Run(config, validAddr, setup, attempts) ==
              ClientRun(None, None, AcceptRun([], 0, Returned(InvalidAddr(Plugin.RemoteText(config.plugin)))))
  {
    Plugin.NoPortSeparator(config.plugin.remoteHost, config.plugin.remotePort);
  }

  /** Likewise a local host without ':' means the local listener is never
      bound and no connection is ever accepted. */
  lemma UnseparatedLocal(config: Configuration.Config, validAddr: string -> bool, setup: Setup,
                         attempts: seq<Attempt>)
    requires Plugin.NeedsColon(validAddr) && ':' !in config.plugin.localHost
    ensures var r := Run(config, validAddr, setup, attempts);
            && r.bound == None && r.loop.relays == [] && r.loop.dropped == 0
            && r.loop.progress.Returned?
            && r.loop.progress.error in
                 {InvalidAddr(Plugin.RemoteText(config.plugin)), Io(KcpConnect), Io(SessionClient),
                  InvalidAddr(Plugin.LocalText(config.plugin))}
  {
    Plugin.NoPortSeparator(config.plugin.localHost, config.plugin.localPort);
  }

  /** With no `SS_*` variable set, the client configuration is built, but its
      remote address text is "127.0.0.129900", so `run` stops at once. */
  lemma DefaultsNeverDial(env: Plugin.Env, validAddr: string -> bool, setup: Setup,
                          attempts: seq<Attempt>)
    requires Plugin.NeedsColon(validAddr)
    requires forall i :: 0 <= i < |env| ==> !Plugin.IsRecognised(env[i].0)
    ensures Configuration.NewClient(env).Ok?
    ensures var config := Configuration.NewClient(env).value;
            Run(config, validAddr, setup, attempts) ==
              ClientRun(None, None, AcceptRun([], 0, Returned(InvalidAddr(Plugin.RemoteText(config.plugin)))))
  {
    Plugin.NewWithoutRecognisedKeys(env);
    var config := Configuration.NewClient(env).value;
    assert config.plugin.remoteHost == Plugin.Default().remoteHost;
    UnseparatedRemote(config, validAddr, setup, attempts);
  }
}

=== FILE: configuration.dfy ===
/** The role configuration: the plugin configuration plus the fixed transport
    settings each role runs with. */
module Configuration {
  import opened Outcomes
  import Plugin

  /** The KCP no-delay profile; only which profile is chosen is modelled. */
  datatype NoDelay = NoDelayDefault | NoDelayFastest

  /** `KcpConfig`, reduced to its no-delay profile. */
  datatype KcpConfig = KcpConfig(nodelay: NoDelay)

  /** `KcpConfig::default()`. */
  const DefaultKcp: KcpConfig := KcpConfig(NoDelayDefault)

  datatype Duration = Seconds(secs: nat)

  datatype Config = Config(
    plugin: Plugin.PluginConfig,
    kcp: KcpConfig,
    sockbuf: nat,
    serverKcpStreamReadTimeout: Option<Duration>)

  const U32Limit: nat := 0x1_0000_0000

  /** `default_sokcbuf`: four mebibytes, which fits the `u32` field. */
  function DefaultSockbuf(): (n: nat)
    ensures n == 4194304 && n < U32Limit
  {
    1024 * 1024 * 4
  }

  /** `new_kcp_config`: the default configuration with the fastest no-delay profile. */
  function NewKcpConfig(): (k: KcpConfig)
    ensures k.nodelay == NoDelayFastest
  {
    DefaultKcp.(nodelay := NoDelayFastest)
  }

  /** `Config::new_client`. */
  function NewClient(env: Plugin.Env): (r: Result<Config>)
    ensures r.Ok? <==> Plugin.New(env).Ok?
    ensures r.Err? ==> r.error == Plugin.New(env).error
    ensures r.Ok? ==> r.value.plugin.isClient &&
                      Plugin.SameAddresses(r.value.plugin, Plugin.New(env).value)
    ensures r.Ok? ==> r.value.sockbuf == 4194304 && r.value.serverKcpStreamReadTimeout == None
    ensures r.Ok? ==> r.value.kcp.nodelay == NoDelayFastest
  {
    var plugin :- Plugin.NewClient(env);
    Ok(Config(plugin, NewKcpConfig(), DefaultSockbuf(), None))
  }

  /** `Config::new_server`. */
  function NewServer(env: Plugin.Env): (r: Result<Config>)
    ensures r.Ok? <==> Plugin.New(env).Ok?
    ensures r.Err? ==> r.error == Plugin.New(env).error
    ensures r.Ok? ==> !r.value.plugin.isClient &&
                      Plugin.SameAddresses(r.value.plugin, Plugin.New(env).value)
    ensures r.Ok? ==> r.value.sockbuf == 4194304 &&
                      r.value.serverKcpStreamReadTimeout == Some(Seconds(5))
    ensures r.Ok? ==> r.value.kcp.nodelay == NoDelayFastest
  {
    var plugin :- Plugin.NewServer(env);
    Ok(Config(plugin, NewKcpConfig(), DefaultSockbuf(), Some(Seconds(5))))
  }

  /** From one environment both roles either fail with the same error or
      succeed with the same addresses, buffer size and transport profile;
      they differ only in the role flag and the read timeout. */
  lemma RolesDifferOnlyInRole(env: Plugin.Env)
    ensures NewClient(env).Ok? <==> NewServer(env).Ok?
    ensures NewClient(env).Err? ==> NewClient(env).error == NewServer(env).error
    ensures NewClient(env).Ok? ==>
              var c, s := NewClient(env).value, NewServer(env).value;
              && Plugin.SameAddresses(c.plugin, s.plugin)
              && c.plugin.isClient != s.plugin.isClient
              && c.kcp == s.kcp && c.sockbuf == s.sockbuf
              && c.serverKcpStreamReadTimeout == None
              && s.serverKcpStreamReadTimeout.Some?
  {
  }
}

=== FILE: decimal.dfy ===
/** Decimal text of `u16` port numbers: the standard library's `u16::from_str`,
    used by `parse_port`, and the `Display` rendering that `format!` uses when
    it builds an address string. */
module Decimal {
  import opened Outcomes

  const MaxPort: nat := 65535

  /** A Rust `u16`. */
  type Port = n: nat | n <= MaxPort

  predicate IsDigit(c: char) {
    '0' <= c <= '9'
  }

  predicate AllDigits(s: string) {
    forall i :: 0 <= i < |s| ==> IsDigit(s[i])
  }

  function DigitValue(c: char): (d: nat)
    requires IsDigit(c)
    ensures d < 10
  {
    (c as int) - ('0' as int)
  }

  function DigitChar(d: nat): (c: char)
    requires d < 10
    ensures IsDigit(c) && DigitValue(c) == d
  {
    (('0' as int) + d) as char
  }

  function Pow10(k: nat): (p: nat)
    ensures p >= 1
  {
    if k == 0 then 1 else 10 * Pow10(k - 1)
  }

  /** The positional value of a digit string, most significant digit first. */
  function Value(s: string): nat
    requires AllDigits(s)
  {
    if s == [] then 0 else Value(s[..|s| - 1]) * 10 + DigitValue(s[|s| - 1])
  }

  /** The digits part of a number text: one leading '+' is dropped. */
  function Unsigned(s: string): string {
    if |s| > 0 && s[0] == '+' then s[1..] else s
  }

  /** The texts `u16::from_str` accepts: an optional '+', then one or more
      ASCII digits (leading zeros allowed) whose value fits in 16 bits. */
  predicate IsPortText(s: string) {
    var d := Unsigned(s);
    |d| > 0 && AllDigits(d) && Value(d) <= MaxPort
  }

  /** The value of an accepted port text. */
  function PortValue(s: string): Port
    requires IsPortText(s)
  {
    Value(Unsigned(s))
  }

  /** A port text as `Display` would print it: no sign and no leading zero. */
  predicate IsCanonical(s: string) {
    IsPortText(s) && s[0] != '+' && (s[0] == '0' ==> |s| == 1)
  }

  /** The digit loop of `from_str`: multiply by ten, add the digit, and fail
      on a non-digit or as soon as the running value leaves 16 bits. */
  function Accumulate(ds: string, acc: Port): (r: Option<Port>)
    ensures r.Some? ==> AllDigits(ds) && acc <= r.value
    decreases |ds|
  {
    if ds == [] then Some(acc)
    else if !IsDigit(ds[0]) then None
    else
      var next := acc * 10 + DigitValue(ds[0]);
      if next > MaxPort then None else Accumulate(ds[1..], next)
  }

  /** `parse_port` (`val.parse::<u16>()?`): the empty text and a lone '+' are
      rejected before the digit loop runs. */
  function ParsePort(val: string): (r: Result<Port>)
    ensures r.Ok? <==> IsPortText(val)
    ensures r.Ok? ==> r.value == PortValue(val)
    ensures r.Err? ==> r.error == InvalidPort(val)
  {
    var digits := Unsigned(val);
    AccumulateMeaning(digits, 0);
    if |digits| == 0 then Err(InvalidPort(val))
    else match Accumulate(digits, 0)
      case Some(p) => Ok(p)
      case None => Err(InvalidPort(val))
  }

  /** `Display` for an unsigned integer: shortest decimal text. */
  function Format(n: nat): (s: string)
    ensures |s| > 0 && AllDigits(s) && Value(s) == n
    ensures s[0] == '0' ==> n == 0
  {
    if n < 10 then [DigitChar(n)]
    else
      var s := Format(n / 10) + [DigitChar(n % 10)];
      assert s[..|s| - 1] == Format(n / 10);
      s
  }

  /** Splitting off the most significant digit. */
  lemma {:induction false} ValueCons(s: string)
    requires |s| > 0 && AllDigits(s)
    ensures AllDigits(s[1..])
    ensures Value(s) == DigitValue(s[0]) * Pow10(|s| - 1) + Value(s[1..])
  {
    var n := |s|;
    if n == 1 {
      assert s[1..] == [];
      assert s[..0] == [];
    } else {
      var init := s[..n - 1];
      var tail := s[1..];
      assert AllDigits(init);
      ValueCons(init);
      assert init[1..] == tail[..n - 2];
      assert init[0] == s[0];
      var d := DigitValue(s[0]);
      var last := DigitValue(s[n - 1]);
      assert tail[|tail| - 1] == s[n - 1];
      assert Value(tail) == Value(init[1..]) * 10 + last;
      assert Pow10(n - 1) == 10 * Pow10(n - 2);
      Regroup(d, Pow10(n - 2), Value(init[1..]), last);
    }
  }

  /** The digit loop computes the positional value, and fails exactly when a
      non-digit appears or the value does not fit. */
  lemma {:induction false} AccumulateMeaning(ds: string, acc: Port)
    ensures Accumulate(ds, acc).Some? <==>
              AllDigits(ds) && acc * Pow10(|ds|) + Value(ds) <= MaxPort
    ensures Accumulate(ds, acc).Some? ==>
              Accumulate(ds, acc).value == acc * Pow10(|ds|) + Value(ds)
    decreases |ds|
  {
    if ds == [] {
    } else if !IsDigit(ds[0]) {
    } else {
      var n := |ds|;
      var d := DigitValue(ds[0]);
      var next := acc * 10 + d;
      var rest := ds[1..];
      assert AllDigits(ds) <==> AllDigits(rest) by {
        if AllDigits(rest) {
          forall i | 0 <= i < n ensures IsDigit(ds[i]) {
            if i > 0 { assert ds[i] == rest[i - 1]; }
          }
        }
      }
      if AllDigits(ds) {
        ValueCons(ds);
        ShiftDigit(acc, d, Pow10(n - 1), Value(rest));
      }
      if next <= MaxPort {
        AccumulateMeaning(rest, next);
      }
    }
  }

  lemma Regroup(d: nat, p: nat, v: nat, last: nat)
    ensures (d * p + v) * 10 + last == d * (10 * p) + (v * 10 + last)
  {
    assert (d * p) * 10 == d * (10 * p);
  }

  lemma ShiftDigit(acc: nat, d: nat, p: nat, v: nat)
    requires p >= 1
    ensures acc * (10 * p) + (d * p + v) == (acc * 10 + d) * p + v
    ensures (acc * 10 + d) * p + v >= acc * 10 + d
  {
    assert acc * (10 * p) == (acc * 10) * p;
    assert (acc * 10 + d) * p == (acc * 10) * p + d * p;
    assert (acc * 10 + d) * p >= acc * 10 + d;
  }

  /** Printing then parsing a port gives the port back. */
  lemma FormatParses(p: Port)
    ensures IsCanonical(Format(p))
    ensures ParsePort(Format(p)) == Ok(p)
  {
    var s := Format(p);
    assert Unsigned(s) == s;
  }

  /** Parsing then printing a canonical text gives the text back. */
  lemma {:induction false} CanonicalRoundTrip(s: string)
    requires IsCanonical(s)
    ensures Format(PortValue(s)) == s
  {
    assert Unsigned(s) == s;
    FormatOfValue(s);
  }

  lemma {:induction false} LeadingDigitPositive(s: string)
    requires |s| > 0 && AllDigits(s) && s[0] != '0'
    ensures Value(s) >= 1
    decreases |s|
  {
    if |s| > 1 {
      var init := s[..|s| - 1];
      assert init[0] == s[0];
      LeadingDigitPositive(init);
    }
  }

  lemma {:induction false} FormatOfValue(s: string)
    requires |s| > 0 && AllDigits(s) && (s[0] == '0' ==> |s| == 1)
    ensures Format(Value(s)) == s
    decreases |s|
  {
    var n := |s|;
    var last := DigitValue(s[n - 1]);
    if n == 1 {
      assert s[..0] == [];
      assert DigitChar(last) == s[0];
    } else {
      var init := s[..n - 1];
      assert init[0] == s[0];
      assert s[0] != '0';
      LeadingDigitPositive(init);
      FormatOfValue(init);
      var v := Value(s);
      assert v == Value(init) * 10 + last;
      assert v >= 10;
      assert v / 10 == Value(init);
      assert v % 10 == last;
      assert DigitChar(last) == s[n - 1];
      assert s == init + [s[n - 1]];
    }
  }
}

=== FILE: outcomes.dfy ===
/** Failure-compatible result types shared by every module of the model, and
    the errors the tunnel can raise.  The Rust code funnels every failure into
    one `anyhow::Error`; here each error remembers where it came from so that
    contracts can say which step failed. */
module Outcomes {

  /** `Option<T>` of the Rust code. */
  datatype Option<+T> = None | Some(value: T)

  /** `anyhow::Result<T>`; usable with `:-` like the `?` operator. */
  datatype Result<+T> = Ok(value: T) | Err(error: Error) {

    predicate IsFailure() {
      Err?
    }

    function PropagateFailure<U>(): Result<U>
      requires Err?
    {
      Err(error)
    }

    function Extract(): T
      requires Ok?
    {
      value
    }
  }

  /** How one awaited I/O call of the environment completed. */
  datatype Completion = Done | Failed

  /** The fallible operations of the tunnel; an `Io` error names the one that failed. */
  datatype Op =
    | SocketRead      // TcpStream::read
    | SocketWrite     // TcpStream::write_all
    | StreamSend      // Stream::send_message
    | StreamRecv      // Stream::recv_message
    | KcpConnect      // KcpStream::connect
    | KcpBind         // KcpListener::bind
    | KcpAccept       // KcpListener::accept
    | SessionClient   // Session::client
    | SessionServer   // Session::server
    | AcceptStream    // Session::accept_stream
    | TcpBind         // TcpListener::bind
    | TcpAccept       // TcpListener::accept
    | TcpConnect      // TcpStream::connect

  /** Where a `run`-style loop stands: still looping, or returned this error. */
  datatype Progress = Looping | Returned(error: Error)

  datatype Error =
    | InvalidPort(text: string)   // `u16` parse failure of a port variable
    | InvalidAddr(text: string)   // `SocketAddr::from_str` failure
    | Io(op: Op)
}

=== FILE: plugin.dfy ===
/** The SIP003 plugin configuration: a default record overwritten by the
    `SS_*` environment variables, and the four address strings derived from
    it.  The environment is an explicit list of (key, value) pairs in the
    order the process sees them. */
module Plugin {
  import opened Outcomes
  import opened Decimal

  const LocalHostKey: string := "SS_LOCAL_HOST"
  const LocalPortKey: string := "SS_LOCAL_PORT"
  const RemoteHostKey: string := "SS_REMOTE_HOST"
  const RemotePortKey: string := "SS_REMOTE_PORT"

  type Env = seq<(string, string)>

  datatype PluginConfig = PluginConfig(
    isClient: bool,
    localHost: string,
    localPort: Port,
    remoteHost: string,
    remotePort: Port)

  /** `impl Default for PluginConfig`: server mode, both hosts the loopback
      address, which holds no ':', and two different ports. */
  function Default(): (c: PluginConfig)
    ensures !c.isClient
    ensures ':' !in c.localHost && ':' !in c.remoteHost
    ensures c.localHost == c.remoteHost && c.localPort != c.remotePort
  {
    PluginConfig(false, "127.0.0.1", 12948, "127.0.0.1", 29900)
  }

  predicate IsPortKey(key: string) {
    key == LocalPortKey || key == RemotePortKey
  }

  predicate IsRecognised(key: string) {
    key == LocalHostKey || key == RemoteHostKey || IsPortKey(key)
  }

  /** One arm of the `match key.as_str()` in `PluginConfig::new`: only a port
      key can fail, and only with its own text; any other key is a no-op. */
  function Apply(c: PluginConfig, key: string, value: string): (r: Result<PluginConfig>)
    ensures r.Ok? <==> !IsPortKey(key) || IsPortText(value)
    ensures r.Err? ==> r.error == InvalidPort(value)
    ensures r.Ok? ==> r.value.isClient == c.isClient
    ensures !IsRecognised(key) ==> r == Ok(c)
  {
    if key == LocalHostKey then Ok(c.(localHost := value))
    else if key == LocalPortKey then
      var port :- ParsePort(value);
      Ok(c.(localPort := port))
    else if key == RemoteHostKey then Ok(c.(remoteHost := value))
    else if key == RemotePortKey then
      var port :- ParsePort(value);
      Ok(c.(remotePort := port))
    else Ok(c)
  }

  /** The `for (key, value) in vars` loop; the first failing port parse returns.
      The role flag is never touched, and the only error is a port text of
      the environment. */
  function Fold(c: PluginConfig, env: Env): (r: Result<PluginConfig>)
    ensures r.Ok? ==> r.value.isClient == c.isClient
    ensures r.Err? ==> exists i :: 0 <= i < |env| && IsPortKey(env[i].0) && r.error == InvalidPort(env[i].1)
    decreases |env|
  {
    if env == [] then Ok(c)
    else
      var next :- Apply(c, env[0].0, env[0].1);
      assert forall i :: 0 <= i < |env| - 1 ==> env[1..][i] == env[i + 1];
      Fold(next, env[1..])
  }

  /** `PluginConfig::new`: the environment overlaid on the default record,
      unless some port variable does not parse. */
  function New(env: Env): (r: Result<PluginConfig>)
    ensures r.Ok? <==> PortsValid(env)
    ensures r.Ok? ==> r.value == Overlay(Default(), env)
  {
    FoldMeaning(Default(), env);
    Fold(Default(), env)
  }

  /** Same hosts and ports. */
  predicate SameAddresses(a: PluginConfig, b: PluginConfig) {
    a.localHost == b.localHost && a.localPort == b.localPort &&
    a.remoteHost == b.remoteHost && a.remotePort == b.remotePort
  }

  /** `PluginConfig::new_client`. */
  function NewClient(env: Env): (r: Result<PluginConfig>)
    ensures r.Ok? <==> New(env).Ok?
    ensures r.Ok? ==> r.value.isClient && SameAddresses(r.value, New(env).value)
    ensures r.Err? ==> r.error == New(env).error
  {
    var c :- New(env);
    Ok(c.(isClient := true))
  }

  /** `PluginConfig::new_server`. */
  function NewServer(env: Env): (r: Result<PluginConfig>)
    ensures r.Ok? <==> New(env).Ok?
    ensures r.Ok? ==> !r.value.isClient && SameAddresses(r.value, New(env).value)
    ensures r.Err? ==> r.error == New(env).error
  {
    var c :- New(env);
    Ok(c.(isClient := false))
  }

  // ---------------------------------------------------------------------
  // Reference meaning of the environment fold

  /** The value of the last entry for `key`, if any. */
  function LastValue(env: Env, key: string): (r: Option<string>)
    ensures r.Some? ==> exists i :: 0 <= i < |env| && env[i] == (key, r.value)
  {
    if env == [] then None
    else if env[|env| - 1].0 == key then Some(env[|env| - 1].1)
    else
      var r := LastValue(env[..|env| - 1], key);
      if r.Some? then
        var i :| 0 <= i < |env| - 1 && env[..|env| - 1][i] == (key, r.value);
        assert env[i] == (key, r.value);
        r
      else r
  }

  /** Every port entry holds a text `u16::from_str` accepts. */
  predicate PortsValid(env: Env) {
    forall i :: 0 <= i < |env| && IsPortKey(env[i].0) ==> IsPortText(env[i].1)
  }

  /** Entry `i` is the first port entry that does not parse. */
  predicate FirstInvalidPort(env: Env, i: int) {
    && 0 <= i < |env| && IsPortKey(env[i].0) && !IsPortText(env[i].1)
    && forall j :: 0 <= j < i && IsPortKey(env[j].0) ==> IsPortText(env[j].1)
  }

  /** Each field takes the value of the last entry for its key, or keeps `c`'s. */
  function Overlay(c: PluginConfig, env: Env): PluginConfig
    requires PortsValid(env)
  {
    PluginConfig(
      c.isClient,
      match LastValue(env, LocalHostKey) case Some(h) => h case None => c.localHost,
      match LastValue(env, LocalPortKey) case Some(v) => PortValue(v) case None => c.localPort,
      match LastValue(env, RemoteHostKey) case Some(h) => h case None => c.remoteHost,
      match LastValue(env, RemotePortKey) case Some(v) => PortValue(v) case None => c.remotePort)
  }

  lemma {:induction false} LastValueCons(e: (string, string), rest: Env, key: string)
    ensures LastValue([e] + rest, key) ==
              if LastValue(rest, key).Some? then LastValue(rest, key)
              else if e.0 == key then Some(e.1) else None
    decreases |rest|
  {
    var env := [e] + rest;
    if rest == [] {
      assert env[..|env| - 1] == [];
    } else {
      assert env[|env| - 1] == rest[|rest| - 1];
      assert env[..|env| - 1] == [e] + rest[..|rest| - 1];
      LastValueCons(e, rest[..|rest| - 1], key);
    }
  }

  /** The fold succeeds exactly when every port entry parses; it then yields
      the overlay of the entries on the start record, and otherwise reports
      the first port text that does not parse. */
  lemma {:induction false} FoldMeaning(c: PluginConfig, env: Env)
    ensures Fold(c, env).Ok? <==> PortsValid(env)
    ensures Fold(c, env).Ok? ==> Fold(c, env).value == Overlay(c, env)
    ensures Fold(c, env).Err? ==>
              exists i :: FirstInvalidPort(env, i) && Fold(c, env).error == InvalidPort(env[i].1)
    decreases |env|
  {
    if env != [] {
      var e := env[0];
      var rest := env[1..];
      match Apply(c, e.0, e.1)
      case Err(err) =>
        assert FirstInvalidPort(env, 0);
      case Ok(next) =>
        FoldMeaning(next, rest);
        PortsValidCons(env);
        if PortsValid(env) {
          OverlayCons(c, next, env);
        } else {
          var i :| FirstInvalidPort(rest, i) && Fold(next, rest).error == InvalidPort(rest[i].1);
          PortsValidCons(env, i);
        }
    }
  }

  /** Past an entry that applies, the ports of the whole environment are valid
      exactly when those of the rest are, and the first invalid one of the
      rest is the first of the whole, one position later. */
  lemma PortsValidCons(env: Env, i: int := 0)
    requires env != [] && (!IsPortKey(env[0].0) || IsPortText(env[0].1))
    ensures PortsValid(env) <==> PortsValid(env[1..])
    ensures FirstInvalidPort(env[1..], i) ==> FirstInvalidPort(env, i + 1) && env[i + 1] == env[1..][i]
  {
    assert forall j :: 0 < j < |env| ==> env[j] == env[1..][j - 1];
  }

  /** Overlaying the rest on the record the first entry produced is
      overlaying the whole environment on the start record. */
  lemma OverlayCons(c: PluginConfig, next: PluginConfig, env: Env)
    requires env != [] && Apply(c, env[0].0, env[0].1) == Ok(next) && PortsValid(env)
    requires PortsValid(env[1..])
    ensures Overlay(next, env[1..]) == Overlay(c, env)
  {
    var e, rest := env[0], env[1..];
    assert env == [e] + rest;
    LastValueCons(e, rest, LocalHostKey);
    LastValueCons(e, rest, LocalPortKey);
    LastValueCons(e, rest, RemoteHostKey);
    LastValueCons(e, rest, RemotePortKey);
  }

  lemma {:induction false} LastValueAbsent(env: Env, key: string)
    requires forall i :: 0 <= i < |env| ==> env[i].0 != key
    ensures LastValue(env, key) == None
    decreases |env|
  {
    if env != [] {
      LastValueAbsent(env[..|env| - 1], key);
    }
  }

  /** With no `SS_*` variable the configuration is the default one. */
  lemma NewWithoutRecognisedKeys(env: Env)
    requires forall i :: 0 <= i < |env| ==> !IsRecognised(env[i].0)
    ensures New(env) == Ok(PluginConfig(false, "127.0.0.1", 12948, "127.0.0.1", 29900))
  {
    FoldMeaning(Default(), env);
    LastValueAbsent(env, LocalHostKey);
    LastValueAbsent(env, LocalPortKey);
    LastValueAbsent(env, RemoteHostKey);
    LastValueAbsent(env, RemotePortKey);
  }

  /** Folding a concatenation folds the first part, then the second. */
  lemma {:induction false} FoldAppend(c: PluginConfig, a: Env, b: Env)
    ensures Fold(c, a + b) == match Fold(c, a) case Ok(m) => Fold(m, b) case Err(e) => Err(e)
    decreases |a|
  {
    if a == [] {
      assert a + b == b;
    } else {
      assert (a + b)[0] == a[0];
      assert (a + b)[1..] == a[1..] + b;
      match Apply(c, a[0].0, a[0].1)
      case Ok(next) => FoldAppend(next, a[1..], b);
      case Err(_) =>
    }
  }

  /** An entry whose key is not one of the four `SS_*` names changes nothing,
      wherever it appears. */
  lemma UnrecognisedKeyIgnored(c: PluginConfig, a: Env, e: (string, string), b: Env)
    requires !IsRecognised(e.0)
    ensures Fold(c, a + [e] + b) == Fold(c, a + b)
  {
    FoldAppend(c, a + [e], b);
    FoldAppend(c, a, [e]);
    FoldAppend(c, a, b);
    if Fold(c, a).Ok? {
      assert Fold(Fold(c, a).value, [e]) == Ok(Fold(c, a).value);
    }
  }

  /** A later host entry overrides earlier ones and touches no other field. */
  lemma HostOverride(env: Env, host: string)
    requires New(env).Ok?
    ensures New(env + [(LocalHostKey, host)]) == Ok(New(env).value.(localHost := host))
    ensures New(env + [(RemoteHostKey, host)]) == Ok(New(env).value.(remoteHost := host))
  {
    FoldAppend(Default(), env, [(LocalHostKey, host)]);
    FoldAppend(Default(), env, [(RemoteHostKey, host)]);
  }

  /** A later port entry overrides earlier ones, or makes the whole
      construction fail when it does not parse. */
  lemma PortOverride(env: Env, text: string)
    requires New(env).Ok?
    ensures New(env + [(LocalPortKey, text)]) ==
              if IsPortText(text) then Ok(New(env).value.(localPort := PortValue(text)))
              else Err(InvalidPort(text))
    ensures New(env + [(RemotePortKey, text)]) ==
              if IsPortText(text) then Ok(New(env).value.(remotePort := PortValue(text)))
              else Err(InvalidPort(text))
  {
    FoldAppend(Default(), env, [(LocalPortKey, text)]);
    FoldAppend(Default(), env, [(RemotePortKey, text)]);
  }

  // ---------------------------------------------------------------------
  // Address strings

  /** A parsed `std::net::SocketAddr`, identified by the text it came from. */
  datatype SocketAddr = SocketAddr(text: string)

  /** `format!("{}{}", host, port)`: the host immediately followed by the
      decimal port, with no ':' between them. */
  function AddrText(host: string, port: Port): (s: string)
    ensures |s| > |host| && s[..|host|] == host
    ensures IsCanonical(s[|host|..]) && ParsePort(s[|host|..]) == Ok(port)
  {
    var s := host + Format(port);
    assert s[|host|..] == Format(port);
    FormatParses(port);
    s
  }

  /** What every text `SocketAddr::from_str` accepts has in common: both of its
      forms, `ip:port` and `[ip]:port`, hold a ':' before the port. */
  ghost predicate NeedsColon(validAddr: string -> bool) {
    forall t :: validAddr(t) ==> ':' in t
  }

  /** The text `server_listen_addr` and `client_remote_addr` format. */
  function RemoteText(c: PluginConfig): string {
    AddrText(c.remoteHost, c.remotePort)
  }

  /** The text `server_target_addr` and `client_local_addr` format. */
  function LocalText(c: PluginConfig): string {
    AddrText(c.localHost, c.localPort)
  }

  /** `SocketAddr::from_str(&addr)?`, with the parser's verdict given by
      `validAddr`: a text without ':' never resolves. */
  function ParseAddr(text: string, validAddr: string -> bool): (r: Result<SocketAddr>)
    ensures r.Ok? <==> validAddr(text)
    ensures r.Ok? ==> r.value.text == text
    ensures r.Err? ==> r.error == InvalidAddr(text)
    ensures NeedsColon(validAddr) && ':' !in text ==> r.Err?
  {
    if validAddr(text) then Ok(SocketAddr(text)) else Err(InvalidAddr(text))
  }

  /** `server_listen_addr`: built from the remote fields. */
  function ServerListenAddr(c: PluginConfig, validAddr: string -> bool): (r: Result<SocketAddr>)
    ensures r.Ok? <==> validAddr(RemoteText(c))
    ensures r.Ok? ==> |r.value.text| > |c.remoteHost| &&
                      r.value.text[..|c.remoteHost|] == c.remoteHost &&
                      ParsePort(r.value.text[|c.remoteHost|..]) == Ok(c.remotePort)
  {
    ParseAddr(RemoteText(c), validAddr)
  }

  /** `server_target_addr`: built from the local fields. */
  function ServerTargetAddr(c: PluginConfig, validAddr: string -> bool): (r: Result<SocketAddr>)
    ensures r.Ok? <==> validAddr(LocalText(c))
    ensures r.Ok? ==> |r.value.text| > |c.localHost| &&
                      r.value.text[..|c.localHost|] == c.localHost &&
                      ParsePort(r.value.text[|c.localHost|..]) == Ok(c.localPort)
  {
    ParseAddr(LocalText(c), validAddr)
  }

  /** `client_local_addr`: the same text as the server's target address. */
  function ClientLocalAddr(c: PluginConfig, validAddr: string -> bool): (r: Result<SocketAddr>)
    ensures r == ServerTargetAddr(c, validAddr)
  {
    ParseAddr(LocalText(c), validAddr)
  }

  /** `client_remote_addr`: the same text as the server's listen address. */
  function ClientRemoteAddr(c: PluginConfig, validAddr: string -> bool): (r: Result<SocketAddr>)
    ensures r == ServerListenAddr(c, validAddr)
  {
    ParseAddr(RemoteText(c), validAddr)
  }

  /** The address text never gains a ':' of its own: when the host has none,
      as the default "127.0.0.1" has none, neither has the whole text, so
      nothing separates the port from the host. */
  lemma {:induction false} NoPortSeparator(host: string, port: Port)
    requires ':' !in host
    ensures ':' !in AddrText(host, port)
    ensures ':' !in AddrText(Default().localHost, Default().localPort)
    ensures ':' !in AddrText(Default().remoteHost, Default().remotePort)
  {
    forall h: string, p: Port | ':' !in h ensures ':' !in AddrText(h, p) {
      var s := AddrText(h, p);
      var digits := Format(p);
      assert s == h + digits;
      forall i | 0 <= i < |s| ensures s[i] != ':' {
        if i >= |h| {
          assert s[i] == digits[i - |h|];
          assert IsDigit(digits[i - |h|]);
        } else {
          assert s[i] == h[i];
        }
      }
    }
    assert ':' !in Default().localHost;
  }
}

=== FILE: relay.dfy ===
/** The `proxy` task that bridges one TCP socket and one smux stream.  The
    client and the server define it with bodies that behave identically, so
    one machine models both.  Each turn of its loop `tokio::select!`s
    whichever of two futures completes first; the model receives the
    resulting interleaving as a trace of completed events, one per loop
    turn. */
module Relay {
  import opened Outcomes

  type Byte = b: int | 0 <= b < 256
  type Bytes = seq<Byte>

  /** `vec![0; 65535]`: the size of the read buffer. */
  const BufferSize: nat := 65535

  /** What one turn of the loop observes. */
  datatype Event =
    | Read(data: Bytes, send: Completion)    // `socket.read` put `data` in `buf[0..size]`;
                                             // `send` is how the following `send_message` ended
    | ReadFailed                             // `socket.read` returned an error
    | Message(msg: Bytes, write: Completion) // `recv_message` returned `Some(msg)`;
                                             // `write` is how the following `write_all` ended
    | Fin                                    // `recv_message` returned `None`
    | RecvFailed                             // `recv_message` returned an error

  /** A socket read never returns more than the buffer holds, and
      `write_all` of an empty message completes without any I/O, so it cannot
      fail. */
  predicate WellFormed(trace: seq<Event>) {
    forall i :: 0 <= i < |trace| ==>
      (trace[i].Read? ==> |trace[i].data| <= BufferSize) &&
      (trace[i].Message? && |trace[i].msg| == 0 ==> trace[i].write.Done?)
  }

  /** The calls the relay makes on its two ends. */
  datatype Action = SendMessage(msg: Bytes) | WriteAll(data: Bytes)

  datatype State = Running | Stopped(result: Result<()>)

  /** The calls made so far, the state reached, and how many events were used. */
  datatype Run = Run(actions: seq<Action>, state: State, consumed: nat)

  /** One loop turn either continues or leaves the loop with `proxy`'s result. */
  datatype Turn = Continue(actions: seq<Action>) | Break(actions: seq<Action>, result: Result<()>)

  /** The body of the `select!`: a turn leaves the loop exactly on an ending
      event, with `Ok` exactly on a clean end, after making the one call that
      event asks for. */
  function Select(e: Event): (t: Turn)
    ensures t.Break? <==> Ends(e)
    ensures t.Break? ==> (t.result.Ok? <==> EndsCleanly(e))
    ensures t.actions == LastAttempt(e)
  {
    match e
    case Read(data, send) =>
      if |data| == 0 then Break([], Ok(()))
      else if send.Done? then Continue([SendMessage(data)])
      else Break([SendMessage(data)], Err(Io(StreamSend)))
    case ReadFailed => Break([], Err(Io(SocketRead)))
    case Message(msg, write) =>
      if write.Done? then Continue([WriteAll(msg)])
      else Break([WriteAll(msg)], Err(Io(SocketWrite)))
    case Fin => Break([], Ok(()))
    case RecvFailed => Break([], Err(Io(StreamRecv)))
  }

  // ---------------------------------------------------------------------
  // Reference views of a trace and of the calls made

  /** The events after which the relay cannot continue. */
  predicate Ends(e: Event) {
    || (e.Read? && (|e.data| == 0 || e.send.Failed?))
    || e.ReadFailed?
    || (e.Message? && e.write.Failed?)
    || e.Fin?
    || e.RecvFailed?
  }

  /** The two ends of data: a zero-length read and a received fin. */
  predicate EndsCleanly(e: Event) {
    (e.Read? && |e.data| == 0) || e.Fin?
  }

  /** Every chunk the socket produced, in order (zero-length reads included). */
  function ReadData(t: seq<Event>): seq<Bytes> {
    if t == [] then []
    else (if t[0].Read? then [t[0].data] else []) + ReadData(t[1..])
  }

  /** The non-empty chunks the socket produced, in order. */
  function Chunks(t: seq<Event>): seq<Bytes> {
    if t == [] then []
    else (if t[0].Read? && |t[0].data| > 0 then [t[0].data] else []) + Chunks(t[1..])
  }

  /** Every message the stream delivered, in order. */
  function Received(t: seq<Event>): seq<Bytes> {
    if t == [] then []
    else (if t[0].Message? then [t[0].msg] else []) + Received(t[1..])
  }

  /** The payloads of the `send_message` calls, in order. */
  function Sent(acts: seq<Action>): seq<Bytes> {
    if acts == [] then []
    else (if acts[0].SendMessage? then [acts[0].msg] else []) + Sent(acts[1..])
  }

  /** The payloads of the `write_all` calls, in order. */
  function Written(acts: seq<Action>): seq<Bytes> {
    if acts == [] then []
    else (if acts[0].WriteAll? then [acts[0].data] else []) + Written(acts[1..])
  }

  function Flatten(chunks: seq<Bytes>): Bytes {
    if chunks == [] then [] else chunks[0] + Flatten(chunks[1..])
  }

  // ---------------------------------------------------------------------
  // The relay

  /** `proxy`: run the loop over the trace until a turn breaks out of it. */
  function Proxy(trace: seq<Event>): (r: Run)
    ensures r.consumed <= |trace|
    ensures r.state.Running? ==> r.consumed == |trace|
    ensures r.state.Stopped? ==> r.consumed > 0
  {
    if trace == [] then Run([], Running, 0)
    else
      match Select(trace[0])
      case Break(acts, res) => Run(acts, Stopped(res), 1)
      case Continue(acts) =>
        var r := Proxy(trace[1..]);
        Run(acts + r.actions, r.state, r.consumed + 1)
  }

  /** The relay stops at the first event that ends it, with `Ok` exactly when
      that event is a clean end. */
  lemma {:induction false} ProxyStops(trace: seq<Event>)
    ensures var r := Proxy(trace);
            && (r.state.Running? <==> forall i :: 0 <= i < |trace| ==> !Ends(trace[i]))
            && (r.state.Stopped? ==>
                  && Ends(trace[r.consumed - 1])
                  && (forall i :: 0 <= i < r.consumed - 1 ==> !Ends(trace[i]))
                  && (r.state.result.Ok? <==> EndsCleanly(trace[r.consumed - 1])))
    decreases |trace|
  {
    if trace != [] && Select(trace[0]).Continue? {
      var rest := trace[1..];
      ProxyStops(rest);
      assert Proxy(trace).state == Proxy(rest).state;
      assert Proxy(trace).consumed == Proxy(rest).consumed + 1;
      assert forall i :: 0 < i < |trace| ==> trace[i] == rest[i - 1];
    }
  }

  /** Up to where it stops, the relay sends every non-empty chunk read and
      writes every message received, each exactly once and in order. */
  lemma {:induction false} ProxyCalls(trace: seq<Event>)
    ensures var r := Proxy(trace);
            && Sent(r.actions) == Chunks(trace[..r.consumed])
            && Written(r.actions) == Received(trace[..r.consumed])
    decreases |trace|
  {
    if trace != [] {
      var e := trace[0];
      var rest := trace[1..];
      match Select(e)
      case Break(acts, res) =>
        assert trace[..1] == [e];
        assert [e][1..] == [];
        assert acts == [] || acts[1..] == [];
      case Continue(acts) =>
        ProxyCalls(rest);
        var r := Proxy(rest);
        assert Proxy(trace).actions == acts + r.actions;
        assert Proxy(trace).consumed == r.consumed + 1;
        assert trace[..r.consumed + 1] == [e] + rest[..r.consumed];
        assert ([e] + rest[..r.consumed])[1..] == rest[..r.consumed];
        assert (acts + r.actions)[0] == acts[0];
        assert (acts + r.actions)[1..] == r.actions;
    }
  }

  /** The action a terminating event still makes before the relay stops. */
  function LastAttempt(e: Event): seq<Action> {
    match e
    case Read(data, _) => if |data| == 0 then [] else [SendMessage(data)]
    case Message(msg, _) => [WriteAll(msg)]
    case _ => []
  }

  /** Once the relay has stopped, later events change nothing. */
  lemma {:induction false} ProxyStopsForGood(t: seq<Event>, more: seq<Event>)
    requires Proxy(t).state.Stopped?
    ensures Proxy(t + more) == Proxy(t)
    decreases |t|
  {
    assert t != [];
    assert (t + more)[0] == t[0];
    assert (t + more)[1..] == t[1..] + more;
    if Select(t[0]).Continue? {
      ProxyStopsForGood(t[1..], more);
    }
  }

  /** While the relay runs, one more event adds exactly that turn's calls. */
  lemma {:induction false} ProxyExtends(t: seq<Event>, e: Event)
    requires Proxy(t).state.Running?
    ensures Proxy(t + [e]).actions == Proxy(t).actions + Select(e).actions
    ensures Proxy(t + [e]).state == if Select(e).Continue? then Running else Stopped(Select(e).result)
    ensures Proxy(t + [e]).consumed == |t| + 1
    decreases |t|
  {
    if t == [] {
      assert [] + [e] == [e];
      assert [e][1..] == [];
    } else {
      var u := t[1..];
      var acts := Select(t[0]).actions;
      ContinueStep(t);
      assert (t + [e])[0] == t[0];
      assert (t + [e])[1..] == u + [e];
      ContinueStep(t + [e]);
      ProxyExtends(u, e);
      assert acts + (Proxy(u).actions + Select(e).actions) == (acts + Proxy(u).actions) + Select(e).actions;
    }
  }

  /** A turn that continues adds its calls in front of the rest of the run. */
  lemma ContinueStep(t: seq<Event>)
    requires t != [] && !Ends(t[0])
    ensures Proxy(t) == Run(Select(t[0]).actions + Proxy(t[1..]).actions,
                            Proxy(t[1..]).state, Proxy(t[1..]).consumed + 1)
  {
  }

  /** A zero-length read or a fin ends the relay with `Ok`, and no further
      call is made, whatever happens afterwards. */
  lemma CleanEnd(t: seq<Event>, e: Event, more: seq<Event>)
    requires Proxy(t).state.Running? && EndsCleanly(e)
    ensures Proxy(t + [e] + more) == Run(Proxy(t).actions, Stopped(Ok(())), |t| + 1)
  {
    ProxyExtends(t, e);
    assert Proxy(t).actions + [] == Proxy(t).actions;
    ProxyStopsForGood(t + [e], more);
  }

  /** Any failed read, send, receive or write ends the relay with `Err` after
      the failing call, and no further call is made. */
  lemma ErrorEnd(t: seq<Event>, e: Event, more: seq<Event>)
    requires Proxy(t).state.Running? && Ends(e) && !EndsCleanly(e)
    ensures Proxy(t + [e] + more).state.Stopped?
    ensures Proxy(t + [e] + more).state.result.Err?
    ensures Proxy(t + [e] + more).actions == Proxy(t).actions + LastAttempt(e)
  {
    ProxyExtends(t, e);
    ProxyStopsForGood(t + [e], more);
  }

  /** A non-empty read whose send succeeds becomes exactly one `send_message`
      of the whole chunk; a delivered message becomes exactly one `write_all`. */
  lemma OneCallPerEvent(t: seq<Event>, e: Event)
    requires Proxy(t).state.Running? && !Ends(e)
    ensures Proxy(t + [e]).state.Running?
    ensures e.Read? ==> Proxy(t + [e]).actions == Proxy(t).actions + [SendMessage(e.data)]
    ensures e.Message? ==> Proxy(t + [e]).actions == Proxy(t).actions + [WriteAll(e.msg)]
  {
    ProxyExtends(t, e);
  }

  lemma {:induction false} FlattenChunks(t: seq<Event>)
    ensures Flatten(Chunks(t)) == Flatten(ReadData(t))
    decreases |t|
  {
    if t != [] {
      FlattenChunks(t[1..]);
      FlattenAppend(if t[0].Read? && |t[0].data| > 0 then [t[0].data] else [], Chunks(t[1..]));
      FlattenAppend(if t[0].Read? then [t[0].data] else [], ReadData(t[1..]));
      if t[0].Read? {
        assert Flatten([t[0].data]) == t[0].data + Flatten([]);
      }
    }
  }

  lemma {:induction false} FlattenAppend(a: seq<Bytes>, b: seq<Bytes>)
    ensures Flatten(a + b) == Flatten(a) + Flatten(b)
    decreases |a|
  {
    if a == [] {
      assert a + b == b;
    } else {
      assert (a + b)[0] == a[0];
      assert (a + b)[1..] == a[1..] + b;
      FlattenAppend(a[1..], b);
    }
  }

  /** Up to the end of the relay, the bytes sent on the stream are the bytes
      read from the socket, and the bytes written to the socket are the bytes
      received from the stream, each in order. */
  lemma ByteStreamIntegrity(t: seq<Event>)
    ensures var r := Proxy(t);
            && Flatten(Sent(r.actions)) == Flatten(ReadData(t[..r.consumed]))
            && Flatten(Written(r.actions)) == Flatten(Received(t[..r.consumed]))
  {
    ProxyCalls(t);
    FlattenChunks(t[..Proxy(t).consumed]);
  }

  lemma {:induction false} ChunksFit(t: seq<Event>)
    requires WellFormed(t)
    ensures forall i :: 0 <= i < |Chunks(t)| ==> 1 <= |Chunks(t)[i]| <= BufferSize
    decreases |t|
  {
    if t != [] {
      assert WellFormed(t[1..]) by {
        forall i | 0 <= i < |t[1..]| ensures t[1..][i] == t[i + 1] {
        }
      }
      ChunksFit(t[1..]);
    }
  }

  /** Every message sent holds between 1 and 65535 bytes. */
  lemma SentMessagesFit(t: seq<Event>)
    requires WellFormed(t)
    ensures forall i :: 0 <= i < |Sent(Proxy(t).actions)| ==>
              1 <= |Sent(Proxy(t).actions)[i]| <= BufferSize
  {
    ProxyCalls(t);
    var k := Proxy(t).consumed;
    assert WellFormed(t[..k]) by {
      forall i | 0 <= i < k ensures t[..k][i] == t[i] {
      }
    }
    ChunksFit(t[..k]);
  }
}

=== FILE: server.dfy ===
/** `Server::run` and `loop_smux_session`: accept KCP connections, wrap each in
    a smux server session and spawn a session loop for it; the session loop
    accepts streams, dials the fixed target for each, and spawns a relay.
    Spawned tasks run on their own: the loops only record what they spawned. */
module Server {
  import opened Outcomes
  import Plugin
  import Configuration
  import Relay

  // ---------------------------------------------------------------------
  // `loop_smux_session`

  /** One turn of the session loop. */
  datatype StreamAttempt =
    | AcceptStreamFailed                 // `session.accept_stream()` returned an error
    | ConnectFailed                      // `TcpStream::connect(target_addr)` returned an error
    | Connected(relay: seq<Relay.Event>) // a relay was spawned; it will see `relay`

  /** The addresses dialled, the relays spawned, and where the loop stands. */
  datatype SessionRun = SessionRun(
    connects: seq<Plugin.SocketAddr>,
    relays: seq<seq<Relay.Event>>,
    progress: Progress)

  /** `loop_smux_session`: both `?`s return from the loop. */
  function LoopSmuxSession(target: Plugin.SocketAddr, attempts: seq<StreamAttempt>): (r: SessionRun)
    ensures forall i :: 0 <= i < |r.connects| ==> r.connects[i] == target
    ensures |r.connects| == |r.relays| + (if r.progress == Returned(Io(TcpConnect)) then 1 else 0)
  {
    if attempts == [] then SessionRun([], [], Looping)
    else
      match attempts[0]
      case AcceptStreamFailed => SessionRun([], [], Returned(Io(AcceptStream)))
      case ConnectFailed => SessionRun([target], [], Returned(Io(TcpConnect)))
      case Connected(relay) =>
        var r := LoopSmuxSession(target, attempts[1..]);
        SessionRun([target] + r.connects, [relay] + r.relays, r.progress)
  }

  predicate IsStreamFailure(a: StreamAttempt) {
    a.AcceptStreamFailed? || a.ConnectFailed?
  }

  /** The traces of the relays spawned for connected streams, in order. */
  function ConnectedRelays(attempts: seq<StreamAttempt>): seq<seq<Relay.Event>> {
    if attempts == [] then []
    else (if attempts[0].Connected? then [attempts[0].relay] else []) + ConnectedRelays(attempts[1..])
  }

  /** Attempt `k` is the first one whose accept or connect failed. */
  predicate FirstStreamFailure(attempts: seq<StreamAttempt>, k: int) {
    0 <= k < |attempts| && IsStreamFailure(attempts[k]) &&
    forall j :: 0 <= j < k ==> !IsStreamFailure(attempts[j])
  }

  /** The session loop spawns one relay per connected stream until the first
      failed accept or failed connect, which ends it with that error. */
  lemma {:induction false} SessionLoopMeaning(target: Plugin.SocketAddr, attempts: seq<StreamAttempt>)
    ensures var r := LoopSmuxSession(target, attempts);
            && (r.progress.Looping? <==> forall i :: 0 <= i < |attempts| ==> !IsStreamFailure(attempts[i]))
            && (r.progress.Looping? ==> r.relays == ConnectedRelays(attempts))
            && (r.progress.Returned? ==>
                  exists k :: FirstStreamFailure(attempts, k) &&
                    r.relays == ConnectedRelays(attempts[..k]) &&
                    r.progress.error ==
                      (if attempts[k].ConnectFailed? then Io(TcpConnect) else Io(AcceptStream)))
    decreases |attempts|
  {
    if attempts != [] {
      var a := attempts[0];
      var rest := attempts[1..];
      if IsStreamFailure(a) {
        assert FirstStreamFailure(attempts, 0);
        assert attempts[..0] == [];
      } else {
        SessionLoopMeaning(target, rest);
        ConnectedCons(attempts);
        var r := LoopSmuxSession(target, rest);
        if r.progress.Returned? {
          var k :| FirstStreamFailure(rest, k) && r.relays == ConnectedRelays(rest[..k]) &&
                   r.progress.error ==
                     (if rest[k].ConnectFailed? then Io(TcpConnect) else Io(AcceptStream));
          LaterStreamFailure(attempts, k);
        }
      }
    }
  }

  /** Past a connected stream, no stream fails in the whole sequence exactly
      when none fails in the rest. */
  lemma ConnectedCons(attempts: seq<StreamAttempt>)
    requires attempts != [] && !IsStreamFailure(attempts[0])
    ensures (forall i :: 0 <= i < |attempts| ==> !IsStreamFailure(attempts[i])) <==>
            (forall i :: 0 <= i < |attempts| - 1 ==> !IsStreamFailure(attempts[1..][i]))
  {
    assert forall i :: 0 < i < |attempts| ==> attempts[i] == attempts[1..][i - 1];
  }

  /** The first failure of the rest is the first of the whole sequence, one
      position later. */
  lemma LaterStreamFailure(attempts: seq<StreamAttempt>, k: int)
    requires attempts != [] && !IsStreamFailure(attempts[0]) && FirstStreamFailure(attempts[1..], k)
    ensures FirstStreamFailure(attempts, k + 1) && attempts[k + 1] == attempts[1..][k]
    ensures attempts[..k + 1] != [] && attempts[..k + 1][0] == attempts[0]
    ensures attempts[..k + 1][1..] == attempts[1..][..k]
  {
    assert forall i :: 0 < i < |attempts| ==> attempts[i] == attempts[1..][i - 1];
  }

  /** Once the session loop has returned, later streams are never accepted. */
  lemma {:induction false} SessionLoopStopsForGood(target: Plugin.SocketAddr, a: seq<StreamAttempt>,
                                                   b: seq<StreamAttempt>)
    requires LoopSmuxSession(target, a).progress.Returned?
    ensures LoopSmuxSession(target, a + b) == LoopSmuxSession(target, a)
    decreases |a|
  {
    assert a != [];
    assert (a + b)[0] == a[0];
    assert (a + b)[1..] == a[1..] + b;
    if a[0].Connected? {
      SessionLoopStopsForGood(target, a[1..], b);
    }
  }

  /** A failed TCP connect ends the whole session loop with an error: the
      streams after it are never accepted. */
  lemma ConnectFailureEndsSession(target: Plugin.SocketAddr, a: seq<StreamAttempt>,
                                  b: seq<StreamAttempt>)
    requires forall i :: 0 <= i < |a| ==> !IsStreamFailure(a[i])
    ensures var r := LoopSmuxSession(target, a + [ConnectFailed] + b);
            && r.progress == Returned(Io(TcpConnect))
            && r.relays == ConnectedRelays(a)
            && |r.connects| == |a| + 1
  {
    var s := a + [ConnectFailed];
    SessionLoopMeaning(target, s);
    assert forall i :: 0 <= i < |a| ==> s[i] == a[i];
    assert FirstStreamFailure(s, |a|);
    assert s[..|a|] == a;
    var r := LoopSmuxSession(target, s);
    var k :| FirstStreamFailure(s, k) && r.relays == ConnectedRelays(s[..k]) &&
             r.progress.error == (if s[k].ConnectFailed? then Io(TcpConnect) else Io(AcceptStream));
    assert k == |a|;
    AllConnectedRelays(a);
    SessionLoopStopsForGood(target, s, b);
  }

  lemma {:induction false} AllConnectedRelays(a: seq<StreamAttempt>)
    requires forall i :: 0 <= i < |a| ==> !IsStreamFailure(a[i])
    ensures |ConnectedRelays(a)| == |a|
    decreases |a|
  {
    if a != [] {
      AllConnectedRelays(a[1..]);
    }
  }

  /** Stream attempts that differ only in what the spawned relays go on to do. */
  predicate SameStreamShape(a: seq<StreamAttempt>, b: seq<StreamAttempt>) {
    |a| == |b| &&
    forall i :: 0 <= i < |a| ==>
      (a[i].AcceptStreamFailed? <==> b[i].AcceptStreamFailed?) &&
      (a[i].ConnectFailed? <==> b[i].ConnectFailed?)
  }

  /** A spawned relay's failure never reaches the session loop. */
  lemma {:induction false} RelayFailureContained(target: Plugin.SocketAddr, a: seq<StreamAttempt>,
                                                 b: seq<StreamAttempt>)
    requires SameStreamShape(a, b)
    ensures LoopSmuxSession(target, a).progress == LoopSmuxSession(target, b).progress
    ensures LoopSmuxSession(target, a).connects == LoopSmuxSession(target, b).connects
    ensures |LoopSmuxSession(target, a).relays| == |LoopSmuxSession(target, b).relays|
    decreases |a|
  {
    if a != [] {
      assert SameStreamShape(a[1..], b[1..]) by {
        forall i | 0 <= i < |a| - 1
          ensures (a[1..][i].AcceptStreamFailed? <==> b[1..][i].AcceptStreamFailed?)
          ensures (a[1..][i].ConnectFailed? <==> b[1..][i].ConnectFailed?)
        {
          assert a[1..][i] == a[i + 1] && b[1..][i] == b[i + 1];
        }
      }
      RelayFailureContained(target, a[1..], b[1..]);
    }
  }

  // ---------------------------------------------------------------------
  // The KCP accept loop of `Server::run`

  /** One turn of the KCP accept loop. */
  datatype SessionAttempt =
    | KcpAcceptFailed                               // `listener.accept()` returned an error
    | SessionFailed                                 // `Session::server` returned an error
    | SessionStarted(streams: seq<StreamAttempt>)   // a session loop was spawned; it will see `streams`

  /** The session loops spawned and where the accept loop stands. */
  datatype ListenRun = ListenRun(sessions: seq<SessionRun>, progress: Progress)

  /** The `loop` of `Server::run`: both `?`s return from `run`. */
  function AcceptSessions(target: Plugin.SocketAddr, attempts: seq<SessionAttempt>): (r: ListenRun)
    ensures |r.sessions| <= |attempts|
  {
    if attempts == [] then ListenRun([], Looping)
    else
      match attempts[0]
      case KcpAcceptFailed => ListenRun([], Returned(Io(KcpAccept)))
      case SessionFailed => ListenRun([], Returned(Io(SessionServer)))
      case SessionStarted(streams) =>
        var r := AcceptSessions(target, attempts[1..]);
        ListenRun([LoopSmuxSession(target, streams)] + r.sessions, r.progress)
  }

  /** The session loops started, each run over its own streams, in order. */
  function StartedSessions(target: Plugin.SocketAddr, attempts: seq<SessionAttempt>): seq<SessionRun> {
    if attempts == [] then []
    else (if attempts[0].SessionStarted? then [LoopSmuxSession(target, attempts[0].streams)] else [])
         + StartedSessions(target, attempts[1..])
  }

  /** Attempt `k` is the first failed accept or failed session construction. */
  predicate FirstSessionFailure(attempts: seq<SessionAttempt>, k: int) {
    0 <= k < |attempts| && !attempts[k].SessionStarted? &&
    forall j :: 0 <= j < k ==> attempts[j].SessionStarted?
  }

  /** `run` keeps accepting until the first failed KCP accept or failed
      `Session::server`, and returns that error; every session started before
      runs its own loop, whose result `run` never looks at. */
  lemma {:induction false} AcceptSessionsMeaning(target: Plugin.SocketAddr, attempts: seq<SessionAttempt>)
    ensures var r := AcceptSessions(target, attempts);
            && (r.progress.Looping? <==> forall i :: 0 <= i < |attempts| ==> attempts[i].SessionStarted?)
            && (r.progress.Looping? ==> r.sessions == StartedSessions(target, attempts))
            && (r.progress.Returned? ==>
                  exists k :: FirstSessionFailure(attempts, k) &&
                    r.sessions == StartedSessions(target, attempts[..k]) &&
                    r.progress.error ==
                      (if attempts[k].KcpAcceptFailed? then Io(KcpAccept) else Io(SessionServer)))
    decreases |attempts|
  {
    if attempts != [] {
      var a := attempts[0];
      var rest := attempts[1..];
      if !a.SessionStarted? {
        assert FirstSessionFailure(attempts, 0);
        assert attempts[..0] == [];
      } else {
        AcceptSessionsMeaning(target, rest);
        StartedCons(attempts);
        var r := AcceptSessions(target, rest);
        if r.progress.Returned? {
          var k :| FirstSessionFailure(rest, k) && r.sessions == StartedSessions(target, rest[..k]) &&
                   r.progress.error ==
                     (if rest[k].KcpAcceptFailed? then Io(KcpAccept) else Io(SessionServer));
          LaterSessionFailure(attempts, k);
        }
      }
    }
  }

  /** Past a started session, every turn starts one exactly when every turn
      of the rest does. */
  lemma StartedCons(attempts: seq<SessionAttempt>)
    requires attempts != [] && attempts[0].SessionStarted?
    ensures (forall i :: 0 <= i < |attempts| ==> attempts[i].SessionStarted?) <==>
            (forall i :: 0 <= i < |attempts| - 1 ==> attempts[1..][i].SessionStarted?)
  {
    assert forall i :: 0 < i < |attempts| ==> attempts[i] == attempts[1..][i - 1];
  }

  /** The first failure of the rest is the first of the whole sequence, one
      position later. */
  lemma LaterSessionFailure(attempts: seq<SessionAttempt>, k: int)
    requires attempts != [] && attempts[0].SessionStarted? && FirstSessionFailure(attempts[1..], k)
    ensures FirstSessionFailure(attempts, k + 1) && attempts[k + 1] == attempts[1..][k]
    ensures attempts[..k + 1] != [] && attempts[..k + 1][0] == attempts[0]
    ensures attempts[..k + 1][1..] == attempts[1..][..k]
  {
    assert forall i :: 0 < i < |attempts| ==> attempts[i] == attempts[1..][i - 1];
  }

  /** Session attempts that differ only in what the spawned session loops see. */
  predicate SameSessionShape(a: seq<SessionAttempt>, b: seq<SessionAttempt>) {
    |a| == |b| &&
    forall i :: 0 <= i < |a| ==>
      (a[i].KcpAcceptFailed? <==> b[i].KcpAcceptFailed?) &&
      (a[i].SessionFailed? <==> b[i].SessionFailed?)
  }

  /** A session loop's failure never reaches `run`. */
  lemma {:induction false} SessionFailureContained(target: Plugin.SocketAddr, a: seq<SessionAttempt>,
                                                   b: seq<SessionAttempt>)
    requires SameSessionShape(a, b)
    ensures AcceptSessions(target, a).progress == AcceptSessions(target, b).progress
    ensures |AcceptSessions(target, a).sessions| == |AcceptSessions(target, b).sessions|
    decreases |a|
  {
    if a != [] {
      assert SameSessionShape(a[1..], b[1..]) by {
        forall i | 0 <= i < |a| - 1
          ensures (a[1..][i].KcpAcceptFailed? <==> b[1..][i].KcpAcceptFailed?)
          ensures (a[1..][i].SessionFailed? <==> b[1..][i].SessionFailed?)
        {
          assert a[1..][i] == a[i + 1] && b[1..][i] == b[i + 1];
        }
      }
      SessionFailureContained(target, a[1..], b[1..]);
    }
  }

  /** A failed `Session::server` ends `run`: no later connection is accepted. */
  lemma {:induction false} SessionConstructionFatal(target: Plugin.SocketAddr, a: seq<SessionAttempt>,
                                                    b: seq<SessionAttempt>)
    requires forall i :: 0 <= i < |a| ==> a[i].SessionStarted?
    ensures AcceptSessions(target, a + [SessionFailed] + b) ==
              ListenRun(AcceptSessions(target, a).sessions, Returned(Io(SessionServer)))
    decreases |a|
  {
    if a == [] {
      assert a + [SessionFailed] + b == [SessionFailed] + b;
    } else {
      assert (a + [SessionFailed] + b)[0] == a[0];
      assert (a + [SessionFailed] + b)[1..] == a[1..] + [SessionFailed] + b;
      SessionConstructionFatal(target, a[1..], b);
    }
  }

  // ---------------------------------------------------------------------
  // `Server::run`

  /** The addresses resolved and the accept loop. */
  datatype ServerRun = ServerRun(
    listen: Option<Plugin.SocketAddr>,
    target: Option<Plugin.SocketAddr>,
    loop: ListenRun)

  /** Both addresses resolve and `KcpListener::bind` succeeds. */
  predicate SetupSucceeds(config: Configuration.Config, validAddr: string -> bool, bind: Completion) {
    validAddr(Plugin.RemoteText(config.plugin)) && validAddr(Plugin.LocalText(config.plugin)) && bind.Done?
  }

  /** `Server::run`: resolve the listen and target addresses, bind, then loop;
      every session loop dials the one target address. */
  function Run(config: Configuration.Config, validAddr: string -> bool, bind: Completion,
               attempts: seq<SessionAttempt>): (r: ServerRun)
    ensures r.listen.Some? <==> validAddr(Plugin.RemoteText(config.plugin))
    ensures r.listen.Some? ==> r.listen.value.text == Plugin.RemoteText(config.plugin)
    ensures r.target.Some? ==> r.target.value.text == Plugin.LocalText(config.plugin) && r.listen.Some?
    ensures SetupSucceeds(config, validAddr, bind) ==>
              r.target.Some? && r.loop == AcceptSessions(r.target.value, attempts)
    ensures !SetupSucceeds(config, validAddr, bind) ==>
              && r.loop.sessions == [] && r.loop.progress.Returned?
              && r.loop.progress.error !in {Io(KcpAccept), Io(SessionServer)}
    // each `?` of the setup returns the error of the first step that fails
    ensures r.target.Some? <==>
              validAddr(Plugin.RemoteText(config.plugin)) && validAddr(Plugin.LocalText(config.plugin))
    ensures !validAddr(Plugin.RemoteText(config.plugin)) ==>
              r.loop.progress == Returned(InvalidAddr(Plugin.RemoteText(config.plugin)))
    ensures validAddr(Plugin.RemoteText(config.plugin)) && !validAddr(Plugin.LocalText(config.plugin)) ==>
              r.loop.progress == Returned(InvalidAddr(Plugin.LocalText(config.plugin)))
    ensures r.target.Some? && bind.Failed? ==> r.loop.progress == Returned(Io(KcpBind))
  {
    match Plugin.ServerListenAddr(config.plugin, validAddr)
    case Err(e) => ServerRun(None, None, ListenRun([], Returned(e)))
    case Ok(listen) =>
      match Plugin.ServerTargetAddr(config.plugin, validAddr)
      case Err(e) => ServerRun(Some(listen), None, ListenRun([], Returned(e)))
      case Ok(target) =>
        if bind.Failed? then ServerRun(Some(listen), Some(target), ListenRun([], Returned(Io(KcpBind))))
        else ServerRun(Some(listen), Some(target), AcceptSessions(target, attempts))
  }

  /** Every stream of every session started by `run` is forwarded to the
      target address built from the local host and port. */
  lemma AllStreamsReachTarget(config: Configuration.Config, validAddr: string -> bool,
                              bind: Completion, attempts: seq<SessionAttempt>)
    requires SetupSucceeds(config, validAddr, bind)
    ensures var r := Run(config, validAddr, bind, attempts);
            forall s, i :: 0 <= s < |r.loop.sessions| && 0 <= i < |r.loop.sessions[s].connects| ==>
              r.loop.sessions[s].connects[i].text == Plugin.LocalText(config.plugin)
  {
    var r := Run(config, validAddr, bind, attempts);
    AcceptSessionsMeaning(r.target.value, attempts);
    StartedSessionsTarget(r.target.value, attempts);
    if r.loop.progress.Returned? {
      var k :| FirstSessionFailure(attempts, k) &&
               r.loop.sessions == StartedSessions(r.target.value, attempts[..k]) &&
               r.loop.progress.error ==
                 (if attempts[k].KcpAcceptFailed? then Io(KcpAccept) else Io(SessionServer));
      StartedSessionsTarget(r.target.value, attempts[..k]);
    }
  }

  lemma {:induction false} StartedSessionsTarget(target: Plugin.SocketAddr, attempts: seq<SessionAttempt>)
    ensures forall s, i :: 0 <= s < |StartedSessions(target, attempts)| &&
                           0 <= i < |StartedSessions(target, attempts)[s].connects| ==>
              StartedSessions(target, attempts)[s].connects[i] == target
    decreases |attempts|
  {
    if attempts != [] {
      StartedSessionsTarget(target, attempts[1..]);
    }
  }

  /** `server_listen_addr` puts no ':' between host and port, so a remote host
      without a ':' of its own, such as a bare IPv4 address, never resolves:
      `run` returns before it binds or accepts anything. */
  lemma UnseparatedListen(config: Configuration.Config, validAddr: string -> bool, bind: Completion,
                          attempts: seq<SessionAttempt>)
    requires Plugin.NeedsColon(validAddr) && ':' !in config.plugin.remoteHost
    ensures Run(config, validAddr, bind, attempts) ==
              ServerRun(None, None, ListenRun([], Returned(InvalidAddr(Plugin.RemoteText(config.plugin)))))
  {
    Plugin.NoPortSeparator(config.plugin.remoteHost, config.plugin.remotePort);
  }

  /** Likewise a local host without ':' gives no target: `run` returns before
      it accepts any session. */
  lemma UnseparatedTarget(config: Configuration.Config, validAddr: string -> bool, bind: Completion,
                          attempts: seq<SessionAttempt>)
    requires Plugin.NeedsColon(validAddr) && ':' !in config.plugin.localHost
    ensures var r := Run(config, validAddr, bind, attempts);
            && r.target == None && r.loop.sessions == []
            && r.loop.progress.Returned?
            && r.loop.progress.error in {InvalidAddr(Plugin.RemoteText(config.plugin)), InvalidAddr(Plugin.LocalText(config.plugin))}
  {
    Plugin.NoPortSeparator(config.plugin.localHost, config.plugin.localPort);
  }

  /** With no `SS_*` variable set, the server configuration is built, but its
      listen address text is "127.0.0.129900", so `run` stops at once. */
  lemma DefaultsNeverListen(env: Plugin.Env, validAddr: string -> bool, bind: Completion,
                            attempts: seq<SessionAttempt>)
    requires Plugin.NeedsColon(validAddr)
    requires forall i :: 0 <= i < |env| ==> !Plugin.IsRecognised(env[i].0)
    ensures Configuration.NewServer(env).Ok?
    ensures var config := Configuration.NewServer(env).value;
            Run(config, validAddr, bind, attempts) ==
              ServerRun(None, None, ListenRun([], Returned(InvalidAddr(Plugin.RemoteText(config.plugin)))))
  {
    Plugin.NewWithoutRecognisedKeys(env);
    var config := Configuration.NewServer(env).value;
    assert config.plugin.remoteHost == Plugin.Default().remoteHost;
    UnseparatedListen(config, validAddr, bind, attempts);
  }
}
